=== FILE: README.md ===
# Finanzas Espacio Nova API — a Dafny model of its domain logic

This project models the expense and receipt handlers of the Finanzas Espacio Nova
REST API, together with the Sequelize schema behind them (`Expenses`, `Receipts`,
`Users` and the `Expenses`–`Receipts` association). The PostgreSQL database is
replaced by an immutable `Store`: one map per table, from primary key to row, plus
the next value of each auto-increment sequence. Each Express handler becomes a pure
function `(Store, input) -> Outcome(Store, Response)`. A `Response` carries the
status code (200/201/204/400/404/500) and the JSON body, including whether the
error text is sent under `error` or under `message`.

Modules, one per concern of the source:

- `JsValues` (`js_values.dfy`): the JavaScript values that arrive in request bodies
  (`Undef | Null | Num | Str`), truthiness, the `||` operator used for merging, and
  how `findByPk` reads a key taken from a body (JSON numbers and decimal form strings,
  within the range of PostgreSQL's INTEGER).
- `OrderedKeys` (`ordered_keys.dfy`): listing the rows of a table by ascending key.
- `Models` (`models.dfy`): the row datatypes, the `Store`, the schema invariants
  (rows stored under their own key, sequences ahead of the used keys, the ExpenseId
  foreign key, unique e-mail), the column constraints (NOT NULL, column type,
  VARCHAR(255) for every STRING column, role enum with default `user`), and the repository writes `create`/`destroy`/`findAll`.
- `Http` (`http.dfy`): responses.
- `ExpenseController` (`expense_controller.dfy`) and `ReceiptController`
  (`receipt_controller.dfy`): the handlers.
- `Api` (`api.dfy`): the route table as a dispatcher over a `Request` datatype, and
  the invariant that holds in every database reachable from an empty one.

External collaborators are parameters. These are the image host (`ImageHost`, a
function from the file's bytes to the host's reply), the url fetcher used by the
download (`Fetcher`), and the database's ON DELETE rule for the ExpenseId foreign
key (`OnDelete = Cascade | Restrict`). The `hasMany` association on a NOT NULL
ExpenseId gives CASCADE by default, so a database created from this schema cascades.
RESTRICT is kept as a parameter only to cover a database created differently, and
every property about deletion is proved for both choices.

The model follows the code, also where it departs from the intended design of the API:

- Update does not re-check that the amount is positive. A negative amount can be
  stored (`UpdateStoresNegativeAmount`), so "amount > 0" is not a store invariant.
  What the modelled handlers keep is that the amount is non-zero and the strings are
  non-empty. The program itself does not quite keep this: an update with the string
  amount "0" would be converted and stored as 0 (see "## Left out").
- The receipt `filename` column is NOT NULL, not optional.
- Deleting an expense cascades only if the database does. The handler itself just
  destroys the expense row.
- The Expense schema is the simple one: amount, description, category, date, userId.

## Model

| member | source | states |
|---|---|---|
| `JsValues.FalsyValues` | src/controllers/expenseController.js:91 | `Truthy` holds of every body value except `undefined`, `null`, `0` and `""`, the values the handlers' `!field` tests reject |
| `JsValues.Or` | src/controllers/expenseController.js:189-192 | `incoming || stored` yields one of its operands: the incoming value when it is truthy, the stored one otherwise |
| `JsValues.OrTruthy` | src/controllers/expenseController.js:189-192 | the `incoming || stored` merge is truthy exactly when one of its operands is, so a merge can never turn a truthy stored field falsy |
| `JsValues.OrAbsorbs` | src/controllers/receiptController.js:333-334 | merging with the same incoming value twice gives the same field as merging once |
| `JsValues.KeyOf` | src/controllers/receiptController.js:278 | an undefined or null body key finds no row; the database refuses the query exactly for a string that is not a decimal INTEGER (non-digits, or above 2147483647); every key that is looked up lies in INTEGER's range |
| `JsValues.DecimalRoundTrip` | src/controllers/receiptController.js:361-373 | the expense id sent as a decimal form field reads back as the same number |
| `JsValues.KeyOfRoundTrip` | src/controllers/receiptController.js:373 | a key up to 2147483647 sent as a decimal string or a JSON integer designates that expense; above it the string is refused by the database and the number matches no row |
| `OrderedKeys.Sorted` | src/controllers/expenseController.js:134 | the listing order holds every key of the table exactly once, strictly ascending |
| `OrderedKeys.RowsAt` | src/controllers/receiptController.js:298 | a listing contains exactly the rows stored under the chosen keys, one per key |
| `Models.FloatColumn` | src/models/index.js:41-44 | the amount column accepts exactly numbers, and refuses undefined or null as a NOT NULL violation |
| `Models.VarcharColumn` | src/models/index.js:45-52 | a STRING column accepts exactly strings of at most 255 characters; undefined or null is a NOT NULL violation and a longer string is refused as too long |
| `Models.DateColumn` | src/models/index.js:53-56 | the DATE column accepts exactly strings, with no length limit, and refuses undefined or null as a NOT NULL violation |
| `Models.AssignVarchar` | src/controllers/receiptController.js:333-335 | assigning `incoming || stored` to a STRING column and saving succeeds exactly when the value is unchanged or fits VARCHAR(255), and then stores that merged value |
| `Models.RoleColumn` | src/models/index.js:117-120 | an absent role defaults to `user`; `"admin"` and `"user"` are stored as those members; a role that is set is always `admin` or `user`, and any other string or number is refused by the enum; an explicit null is accepted and stored as NULL, since the column allows it |
| `Models.InsertExpense` | src/models/index.js:40-61 | a create persists exactly one new row under a key not used before, holding the given values; it is written exactly when the amount is a number, description and category are strings of at most 255 characters and the date is a string |
| `Models.InsertReceipt` | src/models/index.js:64-96 | a receipt is stored exactly when url and filename are strings of at most 255 characters and the ExpenseId names a stored expense; its key is new; a missing url or filename is refused |
| `Models.DestroyExpense` | src/models/index.js:88-100 | deleting an expense leaves no receipt that refers to it; under cascade its receipts go and every other receipt stays, under restrict the delete is refused while receipts exist |
| `Models.DestroyReceipt` | src/controllers/receiptController.js:352 | exactly that receipt is removed; every other row is untouched |
| `Models.InsertUser` | src/models/index.js:103-121 | a user is stored exactly when name, e-mail and password are strings of at most 255 characters, the role is accepted by the enum and the e-mail is not taken; the role defaults to `user`, an explicit null is stored as NULL, and `"admin"` or `"user"` is stored as sent |
| `Models.AllExpenses` | src/controllers/expenseController.js:134 | the listing contains every stored expense and nothing else |
| `Models.AllReceipts` | src/controllers/receiptController.js:298 | the listing contains every stored receipt and nothing else |
| `Models.ReceiptsOf` | src/controllers/receiptController.js:309-311 | the listing contains exactly the receipts whose ExpenseId matches, one entry per matching row, and is empty exactly when the expense has none |
| `Models.EmptyIsValid` | src/models/index.js:39-100 | a fresh database satisfies every schema invariant |
| `Models.InsertExpenseKeepsValid` | src/models/index.js:40-61 | inserting an expense keeps keys, sequences, the foreign key and unique e-mails intact |
| `Models.InsertReceiptKeepsValid` | src/models/index.js:88-95 | inserting a receipt keeps the ExpenseId foreign key and the fresh-key invariant |
| `Models.DestroyExpenseKeepsValid` | src/models/index.js:99-100 | deleting an expense, under either ON DELETE rule, never leaves a dangling ExpenseId |
| `Models.DestroyReceiptKeepsValid` | src/models/index.js:64-96 | deleting a receipt keeps every invariant |
| `Models.InsertUserKeepsValid` | src/models/index.js:108-112 | inserting a user keeps e-mails unique |
| `Models.FreshKeysInValidStore` | src/models/index.js:65-69 | in a valid database the next auto-increment key is not in use in any table |
| `ExpenseController.CreateExpense` | src/controllers/expenseController.js:87-112 | a falsy amount, description, category or date gives 400 "missing fields" with nothing stored; otherwise a non-positive amount gives 400 "not positive"; 201 exactly when the amount is a positive number, description and category are strings of at most 255 characters and the date is a string, adding one new expense with the given fields, a positive amount and userId 1, with every other table untouched; a supplied, positive input that the table refuses gives 500 |
| `ExpenseController.ZeroAmountIsMissing` | src/controllers/expenseController.js:91-97 | an amount of 0 is reported as a missing field, not as a non-positive amount |
| `ExpenseController.NegativeAmountIsNotPositive` | src/controllers/expenseController.js:95-97 | a negative amount with the other fields present gives the "must be positive" 400 and stores nothing |
| `ExpenseController.GetExpenses` | src/controllers/expenseController.js:132-139 | read-only; returns 200 with every stored expense exactly once |
| `ExpenseController.GetExpenseById` | src/controllers/expenseController.js:238-249 | read-only; 200 with the stored record exactly when the id is stored, otherwise 404 with the text under `message` |
| `ExpenseController.CreateThenGet` | src/controllers/expenseController.js:99-107 | an expense read back right after its creation carries the submitted fields |
| `ExpenseController.Merge` | src/controllers/expenseController.js:189-192 | each field becomes the incoming value when that is truthy and keeps the stored value otherwise; id and userId never change; the merge is refused exactly when a truthy amount is not a number, a truthy date is not a string, or a truthy description or category that differs from the stored one is not a string of at most 255 characters (only changed fields are written) |
| `ExpenseController.UpdateExpense` | src/controllers/expenseController.js:179-199 | unknown id gives 404 with nothing changed; otherwise 200 exactly when every changed field fits its column, with the merged record replacing only that row, or 500 with nothing changed |
| `ExpenseController.UpdateOverwritesOnlyTruthy` | src/controllers/expenseController.js:189-192 | an amount of 0 or an empty string keeps the stored value; a truthy value replaces it |
| `ExpenseController.FalsyUpdateIsIdentity` | src/controllers/expenseController.js:189-195 | an update whose fields are all falsy returns the stored record and leaves the database as it was |
| `ExpenseController.UpdateIdempotent` | src/controllers/expenseController.js:189-195 | repeating a successful update changes nothing further |
| `ExpenseController.UpdateStoresNegativeAmount` | src/controllers/expenseController.js:189-195 | update does not repeat create's positivity check: a negative amount is stored |
| `ExpenseController.DeleteExpense` | src/controllers/expenseController.js:222-236 | unknown id gives 404 with nothing changed; for a stored expense, 204 exactly when the rule cascades or it has no receipts, otherwise 500; 204 removes exactly that expense, leaves no receipt of it, keeps every other receipt unchanged, adds none, and moves no sequence |
| `ExpenseController.DeleteTwice` | src/controllers/expenseController.js:226-232 | a second delete of the same id gives 404 |
| `ExpenseController.CreateKeepsTruthy` | src/controllers/expenseController.js:91-105 | a created expense never has a zero amount or an empty string |
| `ExpenseController.UpdateKeepsTruthy` | src/controllers/expenseController.js:189-192 | truthy-overwrite can never make a stored field falsy, given that a string amount is refused |
| `ExpenseController.DeleteKeepsTruthy` | src/controllers/expenseController.js:231 | deleting keeps the remaining expenses' fields truthy |
| `ReceiptController.CreateReceipt` | src/controllers/receiptController.js:273-294 | a null, undefined, non-integral or unknown key gives 404 with nothing stored; a key string the database refuses (not digits, or out of INTEGER's range) gives 500; for an existing expense, 201 exactly when url and filename are strings of at most 255 characters, otherwise 500 with nothing stored; 201 adds one receipt under a new id with the given url and filename and ExpenseId equal to the key; expenses are untouched |
| `ReceiptController.GetReceipts` | src/controllers/receiptController.js:296-303 | read-only; returns 200 with every stored receipt exactly once |
| `ReceiptController.GetReceiptsByExpense` | src/controllers/receiptController.js:305-321 | read-only; 404 exactly when no receipt has that ExpenseId, never an empty list; otherwise exactly the matching receipts, one per row |
| `ReceiptController.ByExpenseIgnoresExpenses` | src/controllers/receiptController.js:309-317 | the answer does not depend on whether the expense itself exists |
| `ReceiptController.UpdateReceipt` | src/controllers/receiptController.js:323-341 | unknown id gives 404; otherwise url and filename follow truthy-overwrite; 200 exactly when each changed field is a string of at most 255 characters, otherwise 500 with nothing changed; id and ExpenseId never change; only that row changes |
| `ReceiptController.DeleteReceipt` | src/controllers/receiptController.js:343-357 | unknown id gives 404; otherwise 204, and exactly that receipt is removed with expenses, users and every sequence untouched |
| `ReceiptController.DeleteReceiptTwice` | src/controllers/receiptController.js:347-353 | a second delete of the same receipt gives 404 |
| `ReceiptController.UploadGate` | src/controllers/receiptController.js:363-376 | checks in order: no file gives 400, then a falsy expenseId gives 400, then an unknown expense gives 404; it proceeds exactly when a file is present and the expense is stored |
| `ReceiptController.UploadImage` | src/controllers/receiptController.js:359-423 | a refused pre-check answers with it and stores nothing; a host failure gives 500 with the host's details; after a successful upload, 201 exactly when the host's url and the file's name fit VARCHAR(255), otherwise 500 with nothing stored; 201 persists one new receipt with filename = the file's name, url = the host's url and ExpenseId = the key, and the echoed image url equals the persisted url |
| `ReceiptController.RefusedUploadNeverCallsHost` | src/controllers/receiptController.js:363-393 | when a pre-check refuses, the outcome is the same for every image host and the database is unchanged |
| `ReceiptController.UploadThenList` | src/controllers/receiptController.js:396-414 | the uploaded receipt carries the file's name and the host's url, and is listed among its expense's receipts |
| `ReceiptController.ContentDisposition` | src/controllers/receiptController.js:436 | the header is the attachment prefix, then the filename verbatim, then a closing quote |
| `ReceiptController.ContentDispositionInjective` | src/controllers/receiptController.js:436 | different filenames give different headers |
| `ReceiptController.DownloadReceipt` | src/controllers/receiptController.js:425-443 | read-only; unknown id gives 404; 200 exactly when fetching the stored url succeeds with a content type, and both headers hold only characters `setHeader` accepts, with a Content-Disposition naming the stored filename and the fetched content type and bytes; every other failure is 500 |
| `ReceiptController.HeaderRefusesUnsafeChar` | src/controllers/receiptController.js:436-437 | `HeaderSafe`, the characters `setHeader` accepts, excludes every control character but TAB (so CR and LF), DEL, and everything beyond 0xFF |
| `ReceiptController.DispositionSafeIffFilenameSafe` | src/controllers/receiptController.js:436 | the Content-Disposition header can be set exactly when the filename can |
| `ReceiptController.UnsafeFilenameFailsDownload` | src/controllers/receiptController.js:436-443 | a stored filename holding a character outside TAB, 0x20-0x7E and 0x80-0xFF makes every download of it a 500 |
| `ReceiptController.DownloadNamesStoredFile` | src/controllers/receiptController.js:427-436 | the filename a download offers is the one the receipt was stored with |
| `Api.Handle` | src/index.js:58-71 | each of the twelve routes reaches its handler; the five read routes never change the database, and every answer is 200, 201, 204, 400, 404 or 500 |
| `Api.HandleKeepsConsistent` | src/models/index.js:88-100 | every handler, under any image host, fetcher or ON DELETE rule, keeps the schema invariants and truthy expense fields |
| `Api.RunKeepsConsistent` | src/models/index.js:88-100 | any sequence of requests keeps the database consistent |
| `Api.ReachableStoresAreConsistent` | src/models/index.js:88-95 | in every database reachable from an empty one, every receipt's ExpenseId names a stored expense, e-mails are unique, sequences are ahead of the used keys, and expense fields are truthy (given that string amounts are refused) |
| `Api.CreateSucceedsWhenWellFormed` | src/controllers/expenseController.js:91-107 | in a consistent database, a positive amount with non-empty description and category of at most 255 characters and a non-empty date is always created |
| `Api.DeleteThenListIsNotFound` | src/controllers/expenseController.js:226-232 | after an expense is deleted, listing its receipts gives 404 |
| `Api.ReceiptForMissingExpense` | src/controllers/receiptController.js:278-281 | a receipt for an expense that is not stored gives 404 and stores nothing |

## Left out

- HTTP plumbing: middleware, the health and banner routes, the global error handler, `listen` and the Swagger documentation. `Api.Handle` keeps only which handler each route reaches.
- The alternative schemas `src/models/expense.js` and `src/models/receipt.js`, registered on an object that is not exported. The richer Expense fields are not modelled.
- The user handlers. `userController` is not part of this model; only the Users schema is, through `Models.InsertUser`.
- Network I/O: the ImgBB request, base64 encoding, FormData, and streaming the download. The host and the fetcher are function parameters.
- `thumbnailUrl` and `deleteUrl` on the persisted receipt. They are not attributes of `Receipts`, so the stored row keeps only the declared fields. They are echoed in the upload response.
- createdAt and updatedAt timestamps, which come from the clock.
- Floating-point amounts. Amounts are exact `real`s. Booleans, arrays and objects in request bodies are not modelled.
- Models.FloatColumn: a numeric string such as "5" is refused as the wrong type. Sequelize would convert it, and `amount <= 0` in create would compare it as a number. The model treats every string amount as not ≤ 0.
- Models.VarcharColumn: a JSON number for a string column is refused as the wrong type; Sequelize would store its decimal text. PostgreSQL's silent truncation of excess trailing blanks is not modelled: such a string is refused as too long. A NUL character, which PostgreSQL refuses in text, is accepted.
- Models.DateColumn: a JSON number is refused as the wrong type, and DATE values are not parsed, so a string that is not a date is accepted.
- JsValues.KeyOf: only plain digit strings are read as keys. PostgreSQL would also accept signs and surrounding blanks.
- ExpenseController.UpdateKeepsTruthy: in the program, the string amount "0" is truthy, so it passes `||`, and Sequelize would convert it and store 0. The model refuses string amounts (see Models.FloatColumn), and the property depends on that.
- Api.HandleKeepsConsistent: the non-zero amount it keeps rests on Models.FloatColumn refusing string amounts; the program would store 0 for an update with `{"amount":"0"}`.
- Api.RunKeepsConsistent: as for Api.HandleKeepsConsistent, the non-zero amount part of the invariant is not kept by the program for string amounts.
- Auto-increment keys are unbounded integers; a sequence that passes 2147483647 is not modelled.
- Path parameters (`:id`, `:expenseId`) are integers. A non-numeric path id, which would make the database refuse the query, is not modelled.
- The 500 branches carry no `details` text, except for a failed image upload. Persistence and fetch failures are a single `Rejected` or `FetchFailed` outcome. Console logging and the connection-pool settings are not modelled.
- A `Receipts.create` failure after a successful image upload does not delete the uploaded image. The model only shows that nothing is stored.
- The destructuring of `req.files` before the `try` in the upload handler, which throws when no files are sent. That is framework behaviour; the model starts from an optional file.
- Requests are handled one at a time; interleaving between a handler's lookup and its write is not modelled. Two concurrent deletes of one expense could both answer 204, and a receipt created while its expense is deleted could fail the foreign key with 500.
- Listings are in ascending id order. The database promises no order without ORDER BY.

=== FILE: api.dfy ===
/**
 * The handlers behind the API's routes, taken together: a request is one
 * handler call on the current database. The database invariants (and the
 * handlers' own guarantee that stored expense fields are truthy) hold in
 * every database reachable from an empty one.
 */
module Api {
  import opened Basics
  import opened JsValues
  import opened Models
  import opened Http
  import opened ExpenseController
  import opened ReceiptController

  datatype Request =
    | PostExpense(expense: ExpenseInput)          // POST   /api/expenses
    | ListExpenses                                // GET    /api/expenses
    | GetExpense(id: int)                         // GET    /api/expenses/:id
    | PutExpense(id: int, patch: ExpenseInput)    // PUT    /api/expenses/:id
    | RemoveExpense(id: int)                      // DELETE /api/expenses/:id
    | PostReceipt(receipt: ReceiptInput)          // POST   /api/receipts
    | ListReceipts                                // GET    /api/receipts
    | ListReceiptsOf(expenseId: int)              // GET    /api/receipts/expense/:expenseId
    | PutReceipt(id: int, fields: ReceiptPatch)   // PUT    /api/receipts/:id
    | RemoveReceipt(id: int)                      // DELETE /api/receipts/:id
    | Upload(file: Option<UploadedFile>, key: Value)  // POST /api/upload
    | Download(id: int)                           // GET    /api/receipts/:id/download

  /** What lies outside the program: the database's ON DELETE rule for the
      ExpenseId foreign key, the image host and the url fetcher. */
  datatype Environment = Environment(onDelete: OnDelete, host: ImageHost, fetch: Fetcher)

  /** A request is routed to the handler its method and path name. Read
      routes never change the database, and every answer is one of the
      statuses the handlers send. */
  function Handle(s: Store, req: Request, env: Environment): (out: Outcome)
    ensures out.response.status in {200, 201, 204, 400, 404, 500}
    ensures req.ListExpenses? || req.GetExpense? || req.ListReceipts? || req.ListReceiptsOf? || req.Download? ==>
      out.store == s
  {
    match req
    case PostExpense(input) => CreateExpense(s, input)
    case ListExpenses => GetExpenses(s)
    case GetExpense(id) => GetExpenseById(s, id)
    case PutExpense(id, input) => UpdateExpense(s, id, input)
    case RemoveExpense(id) => DeleteExpense(s, id, env.onDelete)
    case PostReceipt(input) => CreateReceipt(s, input)
    case ListReceipts => GetReceipts(s)
    case ListReceiptsOf(e) => GetReceiptsByExpense(s, e)
    case PutReceipt(id, patch) => UpdateReceipt(s, id, patch)
    case RemoveReceipt(id) => DeleteReceipt(s, id)
    case Upload(file, key) => UploadImage(s, file, key, env.host)
    case Download(id) => DownloadReceipt(s, id, env.fetch)
  }

  /** The database after a sequence of requests, handled one after another. */
  function Run(s: Store, reqs: seq<Request>, env: Environment): Store
    decreases |reqs|
  {
    if |reqs| == 0 then s else Run(Handle(s, reqs[0], env).store, reqs[1..], env)
  }

  /** The invariant every reachable database satisfies. */
  ghost predicate Consistent(s: Store) {
    Valid(s) && ExpensesTruthy(s)
  }

  /** Every handler keeps the database consistent, whatever the environment. */
  lemma HandleKeepsConsistent(s: Store, req: Request, env: Environment)
    requires Consistent(s)
    ensures Consistent(Handle(s, req, env).store)
  {
  }

  lemma {:induction false} RunKeepsConsistent(s: Store, reqs: seq<Request>, env: Environment)
    requires Consistent(s)
    ensures Consistent(Run(s, reqs, env))
    decreases |reqs|
  {
    if |reqs| > 0 {
      HandleKeepsConsistent(s, reqs[0], env);
      RunKeepsConsistent(Handle(s, reqs[0], env).store, reqs[1..], env);
    }
  }

  /** Every database the modelled API can reach from an empty one keeps the
      ExpenseId foreign key, unique emails and fresh sequences, and its
      expenses keep truthy fields. The last rests on string amounts being
      refused: the program itself would store 0 for the amount "0". */
  lemma ReachableStoresAreConsistent(reqs: seq<Request>, env: Environment)
    ensures Valid(Run(Empty, reqs, env))
    ensures ExpensesTruthy(Run(Empty, reqs, env))
  {
    EmptyIsValid();
    RunKeepsConsistent(Empty, reqs, env);
  }

  /** In a consistent database a well-formed create always succeeds. */
  lemma CreateSucceedsWhenWellFormed(s: Store, input: ExpenseInput)
    requires Consistent(s)
    requires input.amount.Num? && input.amount.n > 0.0
    requires input.description.Str? && 0 < |input.description.s| <= MaxVarchar
    requires input.category.Str? && 0 < |input.category.s| <= MaxVarchar
    requires input.date.Str? && input.date.s != ""
    ensures CreateExpense(s, input).response.status == 201
  {
  }

  /** Deleting an expense leaves no receipts behind for it: listing them
      afterwards is a 404. */
  lemma DeleteThenListIsNotFound(s: Store, id: int, policy: OnDelete)
    requires DeleteExpense(s, id, policy).response.status == 204
    ensures GetReceiptsByExpense(DeleteExpense(s, id, policy).store, id).response == Fail(404, NoReceipts)
  {
  }

  /** A receipt for an expense that is not stored is refused with 404, and
      nothing is stored. */
  lemma ReceiptForMissingExpense(s: Store, input: ReceiptInput, k: int)
    requires KeyOf(input.expenseId) == Key(k) && k !in s.expenses
    ensures CreateReceipt(s, input) == Outcome(s, Fail(404, ReceiptController.ExpenseNotFound))
  {
  }
}

=== FILE: basics.dfy ===
/** Small shared datatypes. */
module Basics {

  /** A value that may be absent (JavaScript `undefined`, or an optional field). */
  datatype Option<+T> = None | Some(value: T)
}

=== FILE: expense_controller.dfy ===
/**
 * The expense handlers: create with validation, list, read one, partial
 * update with truthy-overwrite, and delete.
 */
module ExpenseController {
  import opened Basics
  import opened JsValues
  import opened Models
  import opened Http

  const MissingFields := "Faltan campos requeridos"
  const AmountNotPositive := "El monto debe ser un número positivo"
  const CreateFailed := "Error al crear el gasto"
  const ExpenseNotFound := "Gasto no encontrado"
  const UpdateFailed := "Error al actualizar el gasto"
  const DeleteFailed := "Error al eliminar el gasto"

  /** The user every expense is filed under until authentication exists. */
  const PlaceholderUserId := 1

  /** The fields of a create or update request body. */
  datatype ExpenseInput = ExpenseInput(amount: Value, description: Value, category: Value, date: Value)

  /** All four fields required by create are truthy. */
  predicate Supplied(input: ExpenseInput) {
    Truthy(input.amount) && Truthy(input.description) && Truthy(input.category) && Truthy(input.date)
  }

  /** `amount <= 0` on a number. */
  predicate AtMostZero(amount: Value) {
    amount.Num? && amount.n <= 0.0
  }

  /** Every column of every stored expense holds a truthy value: the
      handlers never store a zero amount or an empty string. */
  ghost predicate ExpensesTruthy(s: Store) {
    forall id :: id in s.expenses ==>
      && s.expenses[id].amount != 0.0
      && s.expenses[id].description != ""
      && s.expenses[id].category != ""
      && s.expenses[id].date != ""
  }

  // ---------------------------------------------------------------------
  // createExpense

  function CreateExpense(s: Store, input: ExpenseInput): (out: Outcome)
    ensures !Supplied(input) ==> out == Outcome(s, Fail(400, MissingFields))
    ensures Supplied(input) && AtMostZero(input.amount) ==> out == Outcome(s, Fail(400, AmountNotPositive))
    ensures out.response.status == 201 <==>
      && Supplied(input) && input.amount.Num? && input.amount.n > 0.0
      && FitsVarchar(input.description) && FitsVarchar(input.category) && input.date.Str?
      && s.nextExpenseId !in s.expenses
    ensures out.response.status == 201 ==>
      && out.response.body.ExpenseJson?
      && var e := out.response.body.expense;
      && e.id !in s.expenses
      && out.store.expenses == s.expenses[e.id := e]
      && OnlyExpensesChanged(s, out.store)
      && e.amount > 0.0
      && Num(e.amount) == input.amount
      && Str(e.description) == input.description
      && Str(e.category) == input.category
      && Str(e.date) == input.date
      && e.userId == PlaceholderUserId
    ensures Supplied(input) && !AtMostZero(input.amount) && out.response.status != 201 ==>
      out.response == Fail(500, CreateFailed)
    ensures out.response.status != 201 ==> out.store == s
    ensures out.response.status in {201, 400, 500}
  {
    if !Supplied(input) then Outcome(s, Fail(400, MissingFields))
    else if AtMostZero(input.amount) then Outcome(s, Fail(400, AmountNotPositive))
    else
      match InsertExpense(s, input.amount, input.description, input.category, input.date, PlaceholderUserId)
      case Written(s', e) => Outcome(s', Response(201, ExpenseJson(e)))
      case Rejected(_) => Outcome(s, Fail(500, CreateFailed))
  }

  /** An amount of zero never reaches the positivity check: it is a missing field. */
  lemma ZeroAmountIsMissing(s: Store, input: ExpenseInput)
    requires input.amount == Num(0.0)
    ensures CreateExpense(s, input).response == Fail(400, MissingFields)
  {
  }

  /** A negative amount with the other fields present is refused as not positive. */
  lemma NegativeAmountIsNotPositive(s: Store, input: ExpenseInput)
    requires input.amount.Num? && input.amount.n < 0.0
    requires Truthy(input.description) && Truthy(input.category) && Truthy(input.date)
    ensures CreateExpense(s, input) == Outcome(s, Fail(400, AmountNotPositive))
  {
  }

  // ---------------------------------------------------------------------
  // getExpenses, getExpenseById

  function GetExpenses(s: Store): (out: Outcome)
    ensures out.store == s
    ensures out.response.status == 200 && out.response.body.ExpensesJson?
    ensures forall e :: e in out.response.body.expenses <==> IsRow(s.expenses, e)
    ensures |out.response.body.expenses| == |s.expenses|
  {
    Outcome(s, Response(200, ExpensesJson(AllExpenses(s))))
  }

  function GetExpenseById(s: Store, id: int): (out: Outcome)
    ensures out.store == s
    ensures out.response.status == 200 <==> id in s.expenses
    ensures id in s.expenses ==> out.response.body == ExpenseJson(s.expenses[id])
    ensures id !in s.expenses ==>
      out.response == Response(404, ErrorJson(MessageField, ExpenseNotFound, None))
  {
    if id !in s.expenses then Outcome(s, Response(404, ErrorJson(MessageField, ExpenseNotFound, None)))
    else Outcome(s, Response(200, ExpenseJson(s.expenses[id])))
  }

  /** A created expense reads back with the fields it was created with. */
  lemma CreateThenGet(s: Store, input: ExpenseInput)
    requires CreateExpense(s, input).response.status == 201
    ensures
      var out := CreateExpense(s, input);
      var e := out.response.body.expense;
      && GetExpenseById(out.store, e.id).response == Response(200, ExpenseJson(e))
      && Num(e.amount) == input.amount && Str(e.description) == input.description
      && Str(e.category) == input.category && Str(e.date) == input.date
  {
  }

  // ---------------------------------------------------------------------
  // updateExpense

  /** Every field an update changes fits its column. */
  predicate Fits(stored: Expense, input: ExpenseInput) {
    && (Truthy(input.amount) ==> input.amount.Num?)
    && Assignable(input.description, stored.description)
    && Assignable(input.category, stored.category)
    && (Truthy(input.date) ==> input.date.Str?)
  }

  /** `field = incoming || field` for each column, then the column checks of `save()`. */
  function Merge(stored: Expense, input: ExpenseInput): (r: Column<Expense>)
    ensures r.Accepted? <==> Fits(stored, input)
    ensures r.Accepted? ==>
      && r.value.id == stored.id
      && r.value.userId == stored.userId
      && (if Truthy(input.amount) then Num(r.value.amount) == input.amount else r.value.amount == stored.amount)
      && (if Truthy(input.description) then Str(r.value.description) == input.description
          else r.value.description == stored.description)
      && (if Truthy(input.category) then Str(r.value.category) == input.category
          else r.value.category == stored.category)
      && (if Truthy(input.date) then Str(r.value.date) == input.date else r.value.date == stored.date)
  {
    var a := FloatColumn("amount", Or(input.amount, Num(stored.amount)));
    var d := AssignVarchar("description", input.description, stored.description);
    var c := AssignVarchar("category", input.category, stored.category);
    var t := DateColumn("date", Or(input.date, Str(stored.date)));
    if a.Refused? then Refused(a.violation)
    else if d.Refused? then Refused(d.violation)
    else if c.Refused? then Refused(c.violation)
    else if t.Refused? then Refused(t.violation)
    else Accepted(Expense(stored.id, a.value, d.value, c.value, t.value, stored.userId))
  }

  function UpdateExpense(s: Store, id: int, input: ExpenseInput): (out: Outcome)
    ensures id !in s.expenses ==> out == Outcome(s, Fail(404, ExpenseNotFound))
    ensures id in s.expenses ==> (out.response.status == 200 <==> Fits(s.expenses[id], input))
    ensures id in s.expenses && out.response.status != 200 ==> out.response == Fail(500, UpdateFailed)
    ensures out.response.status in {200, 404, 500}
    ensures out.response.status != 200 ==> out.store == s
    ensures out.response.status == 200 ==>
      && id in s.expenses
      && out.response.body.ExpenseJson?
      && var e := out.response.body.expense;
      && Merge(s.expenses[id], input) == Accepted(e)
      && e.id == s.expenses[id].id && e.userId == s.expenses[id].userId
      && out.store == s.(expenses := s.expenses[id := e])
      && OnlyRowChanged(s.expenses, out.store.expenses, id)
  {
    if id !in s.expenses then Outcome(s, Fail(404, ExpenseNotFound))
    else
      match Merge(s.expenses[id], input)
      case Refused(_) => Outcome(s, Fail(500, UpdateFailed))
      case Accepted(e) => Outcome(s.(expenses := s.expenses[id := e]), Response(200, ExpenseJson(e)))
  }

  /** Truthy-overwrite: a zero amount or an empty string keeps the stored
      value, a truthy value replaces it. */
  lemma UpdateOverwritesOnlyTruthy(s: Store, id: int, input: ExpenseInput)
    requires UpdateExpense(s, id, input).response.status == 200
    ensures
      var stored := s.expenses[id];
      var e := UpdateExpense(s, id, input).response.body.expense;
      && (input.amount == Num(0.0) ==> e.amount == stored.amount)
      && (input.description == Str("") ==> e.description == stored.description)
      && (Truthy(input.amount) ==> Num(e.amount) == input.amount)
      && (Truthy(input.description) ==> Str(e.description) == input.description)
      && (Truthy(input.category) ==> Str(e.category) == input.category)
      && (Truthy(input.date) ==> Str(e.date) == input.date)
  {
  }

  /** An update whose fields are all falsy changes nothing. */
  lemma FalsyUpdateIsIdentity(s: Store, id: int, input: ExpenseInput)
    requires id in s.expenses
    requires !Truthy(input.amount) && !Truthy(input.description)
    requires !Truthy(input.category) && !Truthy(input.date)
    ensures UpdateExpense(s, id, input) == Outcome(s, Response(200, ExpenseJson(s.expenses[id])))
  {
  }

  /** Sending the same update twice has the effect of sending it once. */
  lemma UpdateIdempotent(s: Store, id: int, input: ExpenseInput)
    requires UpdateExpense(s, id, input).response.status == 200
    ensures
      var once := UpdateExpense(s, id, input);
      UpdateExpense(once.store, id, input) == once
  {
  }

  /** The update handler does not repeat create's positivity check: a
      truthy negative amount is stored as sent. */
  lemma UpdateStoresNegativeAmount(s: Store, id: int)
    requires id in s.expenses
    ensures
      var out := UpdateExpense(s, id, ExpenseInput(Num(-5.0), Undef, Undef, Undef));
      out.response.status == 200 && out.store.expenses[id].amount == -5.0
  {
  }

  // ---------------------------------------------------------------------
  // deleteExpense

  function DeleteExpense(s: Store, id: int, policy: OnDelete): (out: Outcome)
    ensures id !in s.expenses ==> out == Outcome(s, Fail(404, ExpenseNotFound))
    ensures out.response.status in {204, 404, 500}
    ensures out.response.status != 204 ==> out.store == s
    ensures id in s.expenses ==> (out.response.status == 204 <==> policy == Cascade || !HasReceipts(s, id))
    ensures id in s.expenses && out.response.status != 204 ==> out.response == Fail(500, DeleteFailed)
    ensures out.response.status == 204 ==>
      && out.response.body == NoContent
      && out.store.expenses == s.expenses - {id}
      && !HasReceipts(out.store, id)
      && (forall r :: r in s.receipts && s.receipts[r].expenseId != id ==>
            r in out.store.receipts && out.store.receipts[r] == s.receipts[r])
      && (forall r :: r in out.store.receipts ==> r in s.receipts && out.store.receipts[r] == s.receipts[r])
      && out.store.users == s.users
      && out.store.nextExpenseId == s.nextExpenseId
      && out.store.nextReceiptId == s.nextReceiptId
      && out.store.nextUserId == s.nextUserId
  {
    if id !in s.expenses then Outcome(s, Fail(404, ExpenseNotFound))
    else
      match DestroyExpense(s, id, policy)
      case Rejected(_) => Outcome(s, Fail(500, DeleteFailed))
      case Written(s', _) => Outcome(s', Response(204, NoContent))
  }

  /** Deleting the same expense twice: the second request finds nothing. */
  lemma DeleteTwice(s: Store, id: int, policy: OnDelete)
    requires DeleteExpense(s, id, policy).response.status == 204
    ensures
      var s' := DeleteExpense(s, id, policy).store;
      DeleteExpense(s', id, policy) == Outcome(s', Fail(404, ExpenseNotFound))
  {
  }

  // ---------------------------------------------------------------------
  // The handlers keep the stored expenses truthy

  lemma CreateKeepsTruthy(s: Store, input: ExpenseInput)
    requires ExpensesTruthy(s)
    ensures ExpensesTruthy(CreateExpense(s, input).store)
  {
  }

  lemma UpdateKeepsTruthy(s: Store, id: int, input: ExpenseInput)
    requires ExpensesTruthy(s)
    ensures ExpensesTruthy(UpdateExpense(s, id, input).store)
  {
  }

  lemma DeleteKeepsTruthy(s: Store, id: int, policy: OnDelete)
    requires ExpensesTruthy(s)
    ensures ExpensesTruthy(DeleteExpense(s, id, policy).store)
  {
  }
}

=== FILE: http.dfy ===
/** What a handler sends back: a status code and a JSON (or streamed) body. */
module Http {
  import opened Basics
  import opened Models

  /** The key the error text is sent under; the handlers are not consistent about it. */
  datatype ErrorKey = ErrorField | MessageField

  /** The image host's answer as echoed to the client by the upload handler. */
  datatype ImageData = ImageData(url: string, deleteUrl: string, thumbnail: Option<string>)

  datatype Body =
    | ErrorJson(key: ErrorKey, text: string, details: Option<string>)
    | ExpenseJson(expense: Expense)
    | ExpensesJson(expenses: seq<Expense>)
    | ReceiptJson(receipt: Receipt)
    | ReceiptsJson(receipts: seq<Receipt>)
    | UploadJson(message: string, receipt: Receipt, image: ImageData)
    | Attachment(contentDisposition: string, contentType: string, data: seq<bv8>)
    | NoContent

  datatype Response = Response(status: int, body: Body)

  /** The database after a request, and the response to it. */
  datatype Outcome = Outcome(store: Store, response: Response)

  /** `res.status(status).json({ error: text })`. */
  function Fail(status: int, text: string): Response {
    Response(status, ErrorJson(ErrorField, text, None))
  }
}

=== FILE: js_values.dfy ===
/**
 * The JavaScript values that reach the request handlers through a JSON body
 * or a multipart form field, the truthiness rule the handlers test them with,
 * the `||` operator they merge with, and the way `findByPk` interprets a key
 * taken from a request body.
 */
module JsValues {

  /** A request-body field. `Undef` is a property the client did not send. */
  datatype Value = Undef | Null | Num(n: real) | Str(s: string)

  /** JavaScript truthiness: `undefined`, `null`, `0` and `""` are falsy. */
  predicate Truthy(v: Value) {
    match v
    case Undef => false
    case Null => false
    case Num(n) => n != 0.0
    case Str(s) => s != ""
  }

  /** The falsy values are exactly `undefined`, `null`, `0` and `""`;
      every other value a body can carry is truthy. */
  lemma FalsyValues(v: Value)
    ensures !Truthy(v) <==> v == Undef || v == Null || v == Num(0.0) || v == Str("")
  {
  }

  /** `a || b`: the left operand when it is truthy, otherwise the right one. */
  function Or(a: Value, b: Value): (r: Value)
    ensures r == a || r == b
    ensures Truthy(a) ==> r == a
    ensures !Truthy(a) ==> r == b
  {
    if Truthy(a) then a else b
  }

  /** `a || b` is truthy exactly when one of its operands is. */
  lemma OrTruthy(a: Value, b: Value)
    ensures Truthy(Or(a, b)) <==> Truthy(a) || Truthy(b)
  {
  }

  /** Merging with the same left operand twice changes nothing more. */
  lemma OrAbsorbs(a: Value, b: Value)
    ensures Or(a, Or(a, b)) == Or(a, b)
  {
  }

  // ---------------------------------------------------------------------
  // Keys

  /** What a primary-key lookup makes of a key taken from a request body. */
  datatype KeyRef =
    | Key(k: int)  // a well-formed integer key
    | NoRow        // the lookup answers "no such row" (undefined/null, a non-integral number)
    | Malformed    // the database refuses the query (a string that is not an integer)

  predicate IsDigit(c: char) {
    '0' <= c <= '9'
  }

  predicate IsDigits(s: string) {
    |s| > 0 && forall i :: 0 <= i < |s| ==> IsDigit(s[i])
  }

  /** The number a string of decimal digits denotes. */
  function DigitsValue(s: string): nat
    requires forall i :: 0 <= i < |s| ==> IsDigit(s[i])
  {
    if |s| == 0 then 0
    else
      assert IsDigit(s[|s| - 1]);
      DigitsValue(s[..|s| - 1]) * 10 + (s[|s| - 1] as int - '0' as int)
  }

  /** The decimal rendering of a natural number, as a form field carries it. */
  function Decimal(n: nat): (r: string)
    ensures IsDigits(r)
  {
    if n < 10 then [('0' as int + n) as char]
    else Decimal(n / 10) + [('0' as int + n % 10) as char]
  }

  /** The bounds of PostgreSQL's INTEGER, the type of every primary key. */
  const MinInteger := -2147483648
  const MaxInteger := 2147483647

  predicate InIntegerRange(k: int) {
    MinInteger <= k <= MaxInteger
  }

  /** How `findByPk` reads a key that came from a request body. A quoted
      key is cast to INTEGER, so a string the column cannot hold makes the
      database refuse the query; a numeric literal is compared as it is, so
      one out of range merely matches no row. */
  function KeyOf(v: Value): (r: KeyRef)
    ensures r.Malformed? <==> v.Str? && (!IsDigits(v.s) || !InIntegerRange(DigitsValue(v.s)))
    ensures r.Key? ==> InIntegerRange(r.k)
    ensures (v.Undef? || v.Null?) ==> r.NoRow?
  {
    match v
    case Undef => NoRow
    case Null => NoRow
    case Num(n) =>
      if n == n.Floor as real && InIntegerRange(n.Floor) then Key(n.Floor) else NoRow
    case Str(s) =>
      if IsDigits(s) && InIntegerRange(DigitsValue(s)) then Key(DigitsValue(s))
      else Malformed
  }

  /** Reading back the decimal rendering of a number yields that number. */
  lemma {:induction false} DecimalRoundTrip(n: nat)
    ensures DigitsValue(Decimal(n)) == n
    decreases n
  {
    if n >= 10 {
      var prefix := Decimal(n / 10);
      var d := ('0' as int + n % 10) as char;
      assert (prefix + [d])[..|prefix + [d]| - 1] == prefix;
      DecimalRoundTrip(n / 10);
    }
  }

  /** A key sent as a decimal form field, or as a JSON integer, denotes that
      key when an INTEGER column can hold it; beyond that the string is
      refused and the number finds nothing. */
  lemma KeyOfRoundTrip(n: nat)
    ensures n <= MaxInteger ==> KeyOf(Str(Decimal(n))) == Key(n) && KeyOf(Num(n as real)) == Key(n)
    ensures n > MaxInteger ==> KeyOf(Str(Decimal(n))) == Malformed && KeyOf(Num(n as real)) == NoRow
  {
    DecimalRoundTrip(n);
  }
}

=== FILE: models.dfy ===
/**
 * The three tables of the database (Expenses, Receipts, Users), the
 * constraints the schema puts on their columns, and the repository writes
 * (create and destroy) that the database performs subject to those
 * constraints. The database is an in-memory `Store` of maps from primary key
 * to row, with the next value of each auto-increment sequence.
 */
module Models {
  import opened Basics
  import opened JsValues
  import OrderedKeys

  /** A row of Expenses; every column is declared NOT NULL. */
  datatype Expense = Expense(
    id: int,
    amount: real,
    description: string,
    category: string,
    date: string,
    userId: int)

  /** A row of Receipts; `expenseId` is the ExpenseId foreign key. */
  datatype Receipt = Receipt(id: int, url: string, filename: string, expenseId: int)

  /** The ENUM('admin', 'user') of the role column. */
  datatype Role = Admin | RegularUser

  /** A row of Users; `role` may be NULL, since the column does not forbid it. */
  datatype User = User(id: int, name: string, email: string, password: string, role: Option<Role>)

  datatype Store = Store(
    expenses: map<int, Expense>,
    receipts: map<int, Receipt>,
    users: map<int, User>,
    nextExpenseId: int,
    nextReceiptId: int,
    nextUserId: int)

  /** A fresh database: empty tables, every sequence starting at 1. */
  const Empty := Store(map[], map[], map[], 1, 1, 1)

  // ---------------------------------------------------------------------
  // Invariants of every reachable database

  /** Each row is stored under its own primary key. */
  ghost predicate KeysMatchIds(s: Store) {
    && (forall id :: id in s.expenses ==> s.expenses[id].id == id)
    && (forall id :: id in s.receipts ==> s.receipts[id].id == id)
    && (forall id :: id in s.users ==> s.users[id].id == id)
  }

  /** Every sequence is ahead of the keys already handed out. */
  ghost predicate SequencesAhead(s: Store) {
    && (forall id :: id in s.expenses ==> id < s.nextExpenseId)
    && (forall id :: id in s.receipts ==> id < s.nextReceiptId)
    && (forall id :: id in s.users ==> id < s.nextUserId)
  }

  /** The ExpenseId foreign key: every receipt belongs to a stored expense. */
  ghost predicate ReceiptsReferenceExpenses(s: Store) {
    forall id :: id in s.receipts ==> s.receipts[id].expenseId in s.expenses
  }

  /** The UNIQUE constraint on Users.email. */
  ghost predicate UniqueEmails(users: map<int, User>) {
    forall a, b :: a in users && b in users && users[a].email == users[b].email ==> a == b
  }

  ghost predicate Valid(s: Store) {
    && KeysMatchIds(s)
    && SequencesAhead(s)
    && ReceiptsReferenceExpenses(s)
    && UniqueEmails(s.users)
  }

  lemma EmptyIsValid()
    ensures Valid(Empty)
  {
  }

  /** `x` is stored in `table` under some key. */
  predicate IsRow<T(==)>(table: map<int, T>, x: T) {
    exists k :: k in table && table[k] == x
  }

  /** Some stored receipt belongs to expense `id`. */
  predicate HasReceipts(s: Store, id: int) {
    exists r :: r in s.receipts && s.receipts[r].expenseId == id
  }

  // ---------------------------------------------------------------------
  // Frames

  /** Only the Expenses table and its sequence may differ. */
  predicate OnlyExpensesChanged(s: Store, s': Store) {
    && s'.receipts == s.receipts
    && s'.users == s.users
    && s'.nextReceiptId == s.nextReceiptId
    && s'.nextUserId == s.nextUserId
  }

  /** Only the Receipts table and its sequence may differ. */
  predicate OnlyReceiptsChanged(s: Store, s': Store) {
    && s'.expenses == s.expenses
    && s'.users == s.users
    && s'.nextExpenseId == s.nextExpenseId
    && s'.nextUserId == s.nextUserId
  }

  /** The row under `id` is the only row of `m'` that differs from `m`. */
  predicate OnlyRowChanged<T(==)>(m: map<int, T>, m': map<int, T>, id: int) {
    && m'.Keys == m.Keys
    && forall k :: k in m && k != id ==> m'[k] == m[k]
  }

  // ---------------------------------------------------------------------
  // Column constraints

  /** Why the database refuses a write. */
  datatype Violation =
    | NotNull(column: string)     // NULL (or a missing attribute) in a NOT NULL column
    | TooLong(column: string)     // more characters than VARCHAR(255) holds
    | WrongType(column: string)   // a JSON value the column type does not hold
    | NotInEnum(column: string)   // a role outside ENUM('admin', 'user')
    | DuplicateEmail              // UNIQUE(email)
    | DuplicateKey                // the sequence produced a key already in use
    | MissingParent               // ExpenseId names no expense
    | ChildrenExist               // ON DELETE RESTRICT and the expense has receipts

  /** A request value as a column accepts or refuses it. */
  datatype Column<T> = Accepted(value: T) | Refused(violation: Violation)

  /** A NOT NULL FLOAT column. */
  function FloatColumn(column: string, v: Value): (c: Column<real>)
    ensures c.Accepted? <==> v.Num?
    ensures c.Accepted? ==> Num(c.value) == v
    ensures (v.Undef? || v.Null?) ==> c == Refused(NotNull(column))
  {
    match v
    case Num(n) => Accepted(n)
    case Str(_) => Refused(WrongType(column))
    case _ => Refused(NotNull(column))
  }

  /** `DataTypes.STRING` is VARCHAR(255). */
  const MaxVarchar := 255

  /** A string short enough for a VARCHAR(255) column. */
  predicate FitsVarchar(v: Value) {
    v.Str? && |v.s| <= MaxVarchar
  }

  /** A NOT NULL STRING column, that is, VARCHAR(255). */
  function VarcharColumn(column: string, v: Value): (c: Column<string>)
    ensures c.Accepted? <==> FitsVarchar(v)
    ensures c.Accepted? ==> Str(c.value) == v
    ensures (v.Undef? || v.Null?) ==> c == Refused(NotNull(column))
    ensures v.Str? && |v.s| > MaxVarchar ==> c == Refused(TooLong(column))
  {
    match v
    case Str(s) => if |s| <= MaxVarchar then Accepted(s) else Refused(TooLong(column))
    case Num(_) => Refused(WrongType(column))
    case _ => Refused(NotNull(column))
  }

  /** A NOT NULL DATE column; dates are kept as the text the client sent. */
  function DateColumn(column: string, v: Value): (c: Column<string>)
    ensures c.Accepted? <==> v.Str?
    ensures c.Accepted? ==> Str(c.value) == v
    ensures (v.Undef? || v.Null?) ==> c == Refused(NotNull(column))
  {
    match v
    case Str(s) => Accepted(s)
    case Num(_) => Refused(WrongType(column))
    case _ => Refused(NotNull(column))
  }

  /** `row.field = incoming || row.field` on a VARCHAR column, then `save()`.
      Only a changed value is written, so only a changed value meets the
      column's checks. */
  function AssignVarchar(column: string, incoming: Value, stored: string): (c: Column<string>)
    ensures c.Accepted? <==> Assignable(incoming, stored)
    ensures c.Accepted? ==> Str(c.value) == Or(incoming, Str(stored))
  {
    var v := Or(incoming, Str(stored));
    if v == Str(stored) then Accepted(stored) else VarcharColumn(column, v)
  }

  /** The merge of `incoming` into a VARCHAR field can be saved. */
  predicate Assignable(incoming: Value, stored: string) {
    !Truthy(incoming) || incoming == Str(stored) || FitsVarchar(incoming)
  }

  /** The role column: ENUM('admin', 'user') with default 'user', NULL allowed. */
  function RoleColumn(v: Value): (c: Column<Option<Role>>)
    ensures v.Undef? ==> c == Accepted(Some(RegularUser))
    ensures c.Accepted? && c.value.Some? ==> v == Str(if c.value.value == Admin then "admin" else "user") || v.Undef?
    ensures v.Str? && v.s != "admin" && v.s != "user" ==> c == Refused(NotInEnum("role"))
    ensures v.Num? ==> c == Refused(NotInEnum("role"))
    ensures v.Null? ==> c == Accepted(None)
    ensures v == Str("admin") ==> c == Accepted(Some(Admin))
    ensures v == Str("user") ==> c == Accepted(Some(RegularUser))
  {
    match v
    case Undef => Accepted(Some(RegularUser))
    case Null => Accepted(None)
    case Str(s) =>
      if s == "admin" then Accepted(Some(Admin))
      else if s == "user" then Accepted(Some(RegularUser))
      else Refused(NotInEnum("role"))
    case Num(_) => Refused(NotInEnum("role"))
  }

  // ---------------------------------------------------------------------
  // Repository writes

  /** The outcome of a write: the new database and the row, or a refusal. */
  datatype Write<T> = Written(store: Store, row: T) | Rejected(violation: Violation)

  /** `Expenses.create`: a row under the next key of the sequence, if every column accepts its value. */
  function InsertExpense(s: Store, amount: Value, description: Value, category: Value, date: Value, userId: int): (w: Write<Expense>)
    ensures w.Written? <==>
      amount.Num? && FitsVarchar(description) && FitsVarchar(category) && date.Str? && s.nextExpenseId !in s.expenses
    ensures w.Written? ==>
      && w.row.id == s.nextExpenseId
      && w.row.id !in s.expenses
      && w.store.expenses == s.expenses[w.row.id := w.row]
      && w.store.nextExpenseId == s.nextExpenseId + 1
      && OnlyExpensesChanged(s, w.store)
      && Num(w.row.amount) == amount
      && Str(w.row.description) == description
      && Str(w.row.category) == category
      && Str(w.row.date) == date
      && w.row.userId == userId
  {
    var a := FloatColumn("amount", amount);
    var d := VarcharColumn("description", description);
    var c := VarcharColumn("category", category);
    var t := DateColumn("date", date);
    if a.Refused? then Rejected(a.violation)
    else if d.Refused? then Rejected(d.violation)
    else if c.Refused? then Rejected(c.violation)
    else if t.Refused? then Rejected(t.violation)
    else if s.nextExpenseId in s.expenses then Rejected(DuplicateKey)
    else
      var e := Expense(s.nextExpenseId, a.value, d.value, c.value, t.value, userId);
      Written(s.(expenses := s.expenses[e.id := e], nextExpenseId := s.nextExpenseId + 1), e)
  }

  /** `Receipts.create`: url and filename NOT NULL, ExpenseId must name a stored expense. */
  function InsertReceipt(s: Store, url: Value, filename: Value, expenseId: int): (w: Write<Receipt>)
    ensures w.Written? <==>
      FitsVarchar(url) && FitsVarchar(filename) && expenseId in s.expenses && s.nextReceiptId !in s.receipts
    ensures (url.Undef? || url.Null? || filename.Undef? || filename.Null?) ==> w.Rejected?
    ensures w.Written? ==>
      && w.row.id == s.nextReceiptId
      && w.row.id !in s.receipts
      && w.store.receipts == s.receipts[w.row.id := w.row]
      && w.store.nextReceiptId == s.nextReceiptId + 1
      && OnlyReceiptsChanged(s, w.store)
      && Str(w.row.url) == url
      && Str(w.row.filename) == filename
      && w.row.expenseId == expenseId
  {
    var u := VarcharColumn("url", url);
    var f := VarcharColumn("filename", filename);
    if u.Refused? then Rejected(u.violation)
    else if f.Refused? then Rejected(f.violation)
    else if expenseId !in s.expenses then Rejected(MissingParent)
    else if s.nextReceiptId in s.receipts then Rejected(DuplicateKey)
    else
      var r := Receipt(s.nextReceiptId, u.value, f.value, expenseId);
      Written(s.(receipts := s.receipts[r.id := r], nextReceiptId := s.nextReceiptId + 1), r)
  }

  /** What the ExpenseId foreign key does to receipts when their expense is deleted. */
  datatype OnDelete = Cascade | Restrict

  /** `expense.destroy()`: the row goes, and its receipts go with it or block the delete. */
  function DestroyExpense(s: Store, id: int, policy: OnDelete): (w: Write<Expense>)
    requires id in s.expenses
    ensures w.Rejected? <==> policy == Restrict && HasReceipts(s, id)
    ensures w.Rejected? ==> w.violation == ChildrenExist
    ensures w.Written? ==>
      && w.row == s.expenses[id]
      && w.store.expenses == s.expenses - {id}
      && !HasReceipts(w.store, id)
      && (forall r :: r in w.store.receipts <==> r in s.receipts && s.receipts[r].expenseId != id)
      && (forall r :: r in w.store.receipts ==> w.store.receipts[r] == s.receipts[r])
      && w.store.users == s.users
      && w.store.nextExpenseId == s.nextExpenseId
      && w.store.nextReceiptId == s.nextReceiptId
      && w.store.nextUserId == s.nextUserId
  {
    if policy == Restrict && HasReceipts(s, id) then Rejected(ChildrenExist)
    else
      var kept := map r | r in s.receipts && s.receipts[r].expenseId != id :: s.receipts[r];
      Written(s.(expenses := s.expenses - {id}, receipts := kept), s.expenses[id])
  }

  /** `receipt.destroy()`: nothing references a receipt, so the delete always succeeds. */
  function DestroyReceipt(s: Store, id: int): (s': Store)
    requires id in s.receipts
    ensures id !in s'.receipts
    ensures s'.receipts.Keys == s.receipts.Keys - {id}
    ensures forall r :: r in s'.receipts ==> s'.receipts[r] == s.receipts[r]
    ensures OnlyReceiptsChanged(s, s') && s'.nextReceiptId == s.nextReceiptId
  {
    s.(receipts := s.receipts - {id})
  }

  /** Some stored user has this email. */
  predicate EmailTaken(users: map<int, User>, email: string) {
    exists u :: u in users && users[u].email == email
  }

  /** `Users.create`: name, email and password NOT NULL, email UNIQUE, role an enum member with default 'user'. */
  function InsertUser(s: Store, name: Value, email: Value, password: Value, role: Value): (w: Write<User>)
    ensures w.Written? <==>
      && FitsVarchar(name) && FitsVarchar(email) && FitsVarchar(password) && RoleColumn(role).Accepted?
      && !EmailTaken(s.users, email.s) && s.nextUserId !in s.users
    ensures email.Str? && EmailTaken(s.users, email.s) ==> w.Rejected?
    ensures w.Written? ==>
      && w.row.id == s.nextUserId
      && w.row.id !in s.users
      && w.store.users == s.users[w.row.id := w.row]
      && w.store.expenses == s.expenses && w.store.receipts == s.receipts
      && w.store.nextExpenseId == s.nextExpenseId && w.store.nextReceiptId == s.nextReceiptId
      && w.store.nextUserId == s.nextUserId + 1
      && Str(w.row.name) == name && Str(w.row.email) == email && Str(w.row.password) == password
      && (role.Undef? ==> w.row.role == Some(RegularUser))
      && (role.Null? ==> w.row.role == None)
      && (role == Str("admin") ==> w.row.role == Some(Admin))
      && (role == Str("user") ==> w.row.role == Some(RegularUser))
  {
    var n := VarcharColumn("name", name);
    var e := VarcharColumn("email", email);
    var p := VarcharColumn("password", password);
    var r := RoleColumn(role);
    if n.Refused? then Rejected(n.violation)
    else if e.Refused? then Rejected(e.violation)
    else if p.Refused? then Rejected(p.violation)
    else if r.Refused? then Rejected(r.violation)
    else if EmailTaken(s.users, e.value) then Rejected(DuplicateEmail)
    else if s.nextUserId in s.users then Rejected(DuplicateKey)
    else
      var u := User(s.nextUserId, n.value, e.value, p.value, r.value);
      Written(s.(users := s.users[u.id := u], nextUserId := s.nextUserId + 1), u)
  }

  // ---------------------------------------------------------------------
  // Reads

  /** `Expenses.findAll()`: every stored expense, each once, by ascending id. */
  function AllExpenses(s: Store): (r: seq<Expense>)
    ensures forall e :: e in r <==> IsRow(s.expenses, e)
    ensures |r| == |s.expenses|
  {
    OrderedKeys.RowsAt(s.expenses, s.expenses.Keys)
  }

  /** `Receipts.findAll()`: every stored receipt, each once, by ascending id. */
  function AllReceipts(s: Store): (r: seq<Receipt>)
    ensures forall x :: x in r <==> IsRow(s.receipts, x)
    ensures |r| == |s.receipts|
  {
    OrderedKeys.RowsAt(s.receipts, s.receipts.Keys)
  }

  /** The keys of the receipts that belong to one expense. */
  function ReceiptKeysOf(s: Store, expenseId: int): set<int> {
    set k | k in s.receipts && s.receipts[k].expenseId == expenseId
  }

  /** `Receipts.findAll({ where: { ExpenseId } })`: the receipts of one expense, by ascending id. */
  function ReceiptsOf(s: Store, expenseId: int): (r: seq<Receipt>)
    ensures forall x :: x in r <==> IsRow(s.receipts, x) && x.expenseId == expenseId
    ensures |r| == |ReceiptKeysOf(s, expenseId)|
    ensures |r| == 0 <==> !HasReceipts(s, expenseId)
  {
    var ks := ReceiptKeysOf(s, expenseId);
    var r := OrderedKeys.RowsAt(s.receipts, ks);
    assert !HasReceipts(s, expenseId) ==> ks == {};
    forall x | IsRow(s.receipts, x) && x.expenseId == expenseId
      ensures x in r
    {
      var k :| k in s.receipts && s.receipts[k] == x;
      assert k in ks;
    }
    r
  }

  // ---------------------------------------------------------------------
  // The writes keep the database valid

  lemma InsertExpenseKeepsValid(s: Store, amount: Value, description: Value, category: Value, date: Value, userId: int)
    requires Valid(s)
    ensures InsertExpense(s, amount, description, category, date, userId).Written? ==>
      Valid(InsertExpense(s, amount, description, category, date, userId).store)
  {
  }

  lemma InsertReceiptKeepsValid(s: Store, url: Value, filename: Value, expenseId: int)
    requires Valid(s)
    ensures InsertReceipt(s, url, filename, expenseId).Written? ==>
      Valid(InsertReceipt(s, url, filename, expenseId).store)
  {
  }

  lemma DestroyExpenseKeepsValid(s: Store, id: int, policy: OnDelete)
    requires Valid(s) && id in s.expenses
    ensures DestroyExpense(s, id, policy).Written? ==> Valid(DestroyExpense(s, id, policy).store)
  {
  }

  lemma DestroyReceiptKeepsValid(s: Store, id: int)
    requires Valid(s) && id in s.receipts
    ensures Valid(DestroyReceipt(s, id))
  {
  }

  lemma InsertUserKeepsValid(s: Store, name: Value, email: Value, password: Value, role: Value)
    requires Valid(s)
    ensures InsertUser(s, name, email, password, role).Written? ==>
      Valid(InsertUser(s, name, email, password, role).store)
  {
  }

  /** In a valid database a sequence never collides, so only the column
      constraints and the foreign key can refuse an insert. */
  lemma FreshKeysInValidStore(s: Store)
    requires Valid(s)
    ensures s.nextExpenseId !in s.expenses
    ensures s.nextReceiptId !in s.receipts
    ensures s.nextUserId !in s.users
  {
  }
}

=== FILE: ordered_keys.dfy ===
/**
 * Listing the rows of a table. `findAll` without an ORDER BY promises no
 * order; the model lists rows by ascending primary key, which for
 * auto-incremented keys is insertion order.
 */
module OrderedKeys {

  predicate Increasing(ks: seq<int>) {
    forall i, j :: 0 <= i < j < |ks| ==> ks[i] < ks[j]
  }

  /** A set other than the empty set has a member. */
  lemma NonEmptyHasMember(ks: set<int>)
    requires ks != {}
    ensures exists k :: k in ks
  {
    if forall k :: k !in ks {
      assert false;
    }
  }

  /** Every non-empty finite set of integers has a least element. */
  lemma {:induction false} LeastExists(ks: set<int>)
    requires ks != {}
    ensures exists m :: m in ks && forall k :: k in ks ==> m <= k
    decreases ks
  {
    NonEmptyHasMember(ks);
    var x :| x in ks;
    var rest := ks - {x};
    if rest == {} {
      forall k | k in ks
        ensures x <= k
      {
        assert k == x || k in rest;
      }
    } else {
      LeastExists(rest);
      var m :| m in rest && forall k :: k in rest ==> m <= k;
      var least := if x < m then x else m;
      forall k | k in ks
        ensures least <= k
      {
        assert k == x || k in rest;
      }
      assert least in ks;
    }
  }

  function Least(ks: set<int>): (m: int)
    requires ks != {}
    ensures m in ks
    ensures forall k :: k in ks ==> m <= k
  {
    LeastExists(ks);
    var m :| m in ks && forall k :: k in ks ==> m <= k;
    m
  }

  /** The keys of a set, each once, in ascending order. */
  function Sorted(ks: set<int>): (r: seq<int>)
    ensures Increasing(r)
    ensures forall k :: k in r <==> k in ks
    ensures |r| == |ks|
    decreases ks
  {
    if ks == {} then []
    else
      var m := Least(ks);
      [m] + Sorted(ks - {m})
  }

  /** The rows stored under the given keys, in the order of the keys. */
  function Rows<T>(table: map<int, T>, ks: seq<int>): (r: seq<T>)
    requires forall i :: 0 <= i < |ks| ==> ks[i] in table
    ensures |r| == |ks|
    ensures forall i :: 0 <= i < |ks| ==> r[i] == table[ks[i]]
  {
    seq(|ks|, i requires 0 <= i < |ks| => table[ks[i]])
  }

  /** The rows of a table whose keys lie in `ks`, by ascending key. */
  function RowsAt<T(!new)>(table: map<int, T>, ks: set<int>): (r: seq<T>)
    requires ks <= table.Keys
    ensures forall x :: x in r <==> exists k :: k in ks && table[k] == x
    ensures |r| == |ks|
  {
    var keys := Sorted(ks);
    var r := Rows(table, keys);
    assert forall x :: x in r ==> exists k :: k in ks && table[k] == x by {
      forall x | x in r
        ensures exists k :: k in ks && table[k] == x
      {
        var i :| 0 <= i < |r| && r[i] == x;
        assert keys[i] in ks;
      }
    }
    assert forall k :: k in ks ==> table[k] in r by {
      forall k | k in ks
        ensures table[k] in r
      {
        var i :| 0 <= i < |keys| && keys[i] == k;
        assert r[i] == table[k];
      }
    }
    r
  }
}

=== FILE: receipt_controller.dfy ===
/**
 * The receipt handlers: create for an existing expense, list, list by
 * expense, partial update, delete, upload through an external image host,
 * and download through an external fetch.
 */
module ReceiptController {
  import opened Basics
  import opened JsValues
  import opened Models
  import opened Http

  const ExpenseNotFound := "Gasto no encontrado"
  const CreateFailed := "Error al crear el recibo"
  const NoReceipts := "No se encontraron recibos para este gasto"
  const ReceiptNotFound := "Recibo no encontrado"
  const UpdateFailed := "Error al actualizar el recibo"
  const DeleteFailed := "Error al eliminar el recibo"
  const NoFile := "No se ha proporcionado ningún archivo"
  const NoExpenseId := "Se requiere el ID del gasto (expenseId)"
  const UploadFailed := "Error al procesar el recibo"
  const Uploaded := "Recibo creado exitosamente"
  const DownloadFailed := "Error al descargar el recibo"

  /** The body of a create request. */
  datatype ReceiptInput = ReceiptInput(url: Value, filename: Value, expenseId: Value)

  /** The body of an update request. */
  datatype ReceiptPatch = ReceiptPatch(url: Value, filename: Value)

  /** The expense a body key designates is stored. */
  predicate NamesStoredExpense(s: Store, key: Value) {
    KeyOf(key).Key? && KeyOf(key).k in s.expenses
  }

  /** A value a NOT NULL column refuses as missing. */
  predicate ColumnMissing(v: Value) {
    v.Undef? || v.Null?
  }

  // ---------------------------------------------------------------------
  // createReceipt

  function CreateReceipt(s: Store, input: ReceiptInput): (out: Outcome)
    ensures !NamesStoredExpense(s, input.expenseId) && !KeyOf(input.expenseId).Malformed? ==>
      out == Outcome(s, Fail(404, ExpenseNotFound))
    ensures out.response.status == 201 ==>
      && out.response.body.ReceiptJson?
      && var r := out.response.body.receipt;
      && NamesStoredExpense(s, input.expenseId)
      && KeyOf(input.expenseId) == Key(r.expenseId)
      && r.id !in s.receipts
      && out.store.receipts == s.receipts[r.id := r]
      && OnlyReceiptsChanged(s, out.store)
      && Str(r.url) == input.url
      && Str(r.filename) == input.filename
    ensures NamesStoredExpense(s, input.expenseId) ==>
      (out.response.status == 201 <==>
        FitsVarchar(input.url) && FitsVarchar(input.filename) && s.nextReceiptId !in s.receipts)
    ensures NamesStoredExpense(s, input.expenseId) && (ColumnMissing(input.url) || ColumnMissing(input.filename)) ==>
      out == Outcome(s, Fail(500, CreateFailed))
    ensures KeyOf(input.expenseId).Malformed? || (NamesStoredExpense(s, input.expenseId) && out.response.status != 201) ==>
      out == Outcome(s, Fail(500, CreateFailed))
    ensures out.response.status in {201, 404, 500}
    ensures out.response.status != 201 ==> out.store == s
  {
    match KeyOf(input.expenseId)
    case Malformed => Outcome(s, Fail(500, CreateFailed))
    case NoRow => Outcome(s, Fail(404, ExpenseNotFound))
    case Key(k) =>
      if k !in s.expenses then Outcome(s, Fail(404, ExpenseNotFound))
      else
        match InsertReceipt(s, input.url, input.filename, k)
        case Rejected(_) => Outcome(s, Fail(500, CreateFailed))
        case Written(s', r) => Outcome(s', Response(201, ReceiptJson(r)))
  }

  // ---------------------------------------------------------------------
  // getReceipts, getReceiptsByExpense

  function GetReceipts(s: Store): (out: Outcome)
    ensures out.store == s
    ensures out.response.status == 200 && out.response.body.ReceiptsJson?
    ensures forall x :: x in out.response.body.receipts <==> IsRow(s.receipts, x)
    ensures |out.response.body.receipts| == |s.receipts|
  {
    Outcome(s, Response(200, ReceiptsJson(AllReceipts(s))))
  }

  function GetReceiptsByExpense(s: Store, expenseId: int): (out: Outcome)
    ensures out.store == s
    ensures out.response.status in {200, 404}
    ensures out.response.status == 404 <==> !HasReceipts(s, expenseId)
    ensures out.response.status == 404 ==> out.response == Fail(404, NoReceipts)
    ensures out.response.status == 200 ==>
      && out.response.body.ReceiptsJson?
      && |out.response.body.receipts| == |ReceiptKeysOf(s, expenseId)| > 0
      && forall x :: x in out.response.body.receipts <==> IsRow(s.receipts, x) && x.expenseId == expenseId
  {
    var found := ReceiptsOf(s, expenseId);
    if |found| == 0 then Outcome(s, Fail(404, NoReceipts))
    else Outcome(s, Response(200, ReceiptsJson(found)))
  }

  /** The handler reads only the Receipts table: whether the expense itself
      exists makes no difference to the answer. */
  lemma ByExpenseIgnoresExpenses(s: Store, expenses: map<int, Expense>, expenseId: int)
    ensures GetReceiptsByExpense(s.(expenses := expenses), expenseId).response
         == GetReceiptsByExpense(s, expenseId).response
  {
  }

  // ---------------------------------------------------------------------
  // updateReceipt, deleteReceipt

  function UpdateReceipt(s: Store, id: int, patch: ReceiptPatch): (out: Outcome)
    ensures id !in s.receipts ==> out == Outcome(s, Fail(404, ReceiptNotFound))
    ensures out.response.status in {200, 404, 500}
    ensures out.response.status != 200 ==> out.store == s
    ensures id in s.receipts ==>
      (out.response.status == 200 <==>
        Assignable(patch.url, s.receipts[id].url) && Assignable(patch.filename, s.receipts[id].filename))
    ensures id in s.receipts && out.response.status != 200 ==> out.response == Fail(500, UpdateFailed)
    ensures out.response.status == 200 ==>
      && id in s.receipts
      && out.response.body.ReceiptJson?
      && var stored := s.receipts[id];
      && var r := out.response.body.receipt;
      && r.id == stored.id && r.expenseId == stored.expenseId
      && (if Truthy(patch.url) then Str(r.url) == patch.url else r.url == stored.url)
      && (if Truthy(patch.filename) then Str(r.filename) == patch.filename else r.filename == stored.filename)
      && out.store == s.(receipts := s.receipts[id := r])
      && OnlyRowChanged(s.receipts, out.store.receipts, id)
  {
    if id !in s.receipts then Outcome(s, Fail(404, ReceiptNotFound))
    else
      var stored := s.receipts[id];
      var u := AssignVarchar("url", patch.url, stored.url);
      var f := AssignVarchar("filename", patch.filename, stored.filename);
      if u.Refused? || f.Refused? then Outcome(s, Fail(500, UpdateFailed))
      else
        var r := stored.(url := u.value, filename := f.value);
        Outcome(s.(receipts := s.receipts[id := r]), Response(200, ReceiptJson(r)))
  }

  function DeleteReceipt(s: Store, id: int): (out: Outcome)
    ensures id !in s.receipts ==> out == Outcome(s, Fail(404, ReceiptNotFound))
    ensures id in s.receipts ==>
      && out.response == Response(204, NoContent)
      && id !in out.store.receipts
      && out.store.receipts.Keys == s.receipts.Keys - {id}
      && (forall r :: r in out.store.receipts ==> out.store.receipts[r] == s.receipts[r])
      && out.store.expenses == s.expenses
      && out.store.users == s.users
      && out.store.nextExpenseId == s.nextExpenseId
      && out.store.nextReceiptId == s.nextReceiptId
      && out.store.nextUserId == s.nextUserId
  {
    if id !in s.receipts then Outcome(s, Fail(404, ReceiptNotFound))
    else Outcome(DestroyReceipt(s, id), Response(204, NoContent))
  }

  /** A deleted receipt is gone for the next request. */
  lemma DeleteReceiptTwice(s: Store, id: int)
    requires id in s.receipts
    ensures
      var s' := DeleteReceipt(s, id).store;
      DeleteReceipt(s', id) == Outcome(s', Fail(404, ReceiptNotFound))
  {
  }

  // ---------------------------------------------------------------------
  // uploadImage

  /** The multipart `file` field. */
  datatype UploadedFile = UploadedFile(name: string, data: seq<bv8>)

  /** What the image host answers to an upload. */
  datatype HostReply =
    | Hosted(url: string, deleteUrl: string, thumbnail: Option<string>)
    | HostFailed(details: string)

  /** The external image host, taking the file's bytes. */
  type ImageHost = seq<bv8> -> HostReply

  /** The checks the upload handler makes before it calls the image host. */
  datatype Gate = Stop(response: Response) | Proceed(file: UploadedFile, expenseId: int)

  function UploadGate(s: Store, file: Option<UploadedFile>, expenseId: Value): (g: Gate)
    ensures file.None? ==> g == Stop(Fail(400, NoFile))
    ensures file.Some? && !Truthy(expenseId) ==> g == Stop(Fail(400, NoExpenseId))
    ensures file.Some? && Truthy(expenseId) && KeyOf(expenseId).Malformed? ==> g == Stop(Fail(500, UploadFailed))
    ensures file.Some? && Truthy(expenseId) && !KeyOf(expenseId).Malformed? && !NamesStoredExpense(s, expenseId) ==>
      g == Stop(Fail(404, ExpenseNotFound))
    ensures g.Proceed? <==> file.Some? && Truthy(expenseId) && NamesStoredExpense(s, expenseId)
    ensures g.Proceed? ==> g.file == file.value && Key(g.expenseId) == KeyOf(expenseId)
  {
    if file.None? then Stop(Fail(400, NoFile))
    else if !Truthy(expenseId) then Stop(Fail(400, NoExpenseId))
    else
      match KeyOf(expenseId)
      case Malformed => Stop(Fail(500, UploadFailed))
      case NoRow => Stop(Fail(404, ExpenseNotFound))
      case Key(k) =>
        if k !in s.expenses then Stop(Fail(404, ExpenseNotFound))
        else Proceed(file.value, k)
  }

  function UploadImage(s: Store, file: Option<UploadedFile>, expenseId: Value, host: ImageHost): (out: Outcome)
    ensures UploadGate(s, file, expenseId).Stop? ==>
      out == Outcome(s, UploadGate(s, file, expenseId).response)
    ensures out.response.status in {201, 400, 404, 500}
    ensures out.response.status != 201 ==> out.store == s
    ensures out.response.status == 201 ==>
      && file.Some?
      && NamesStoredExpense(s, expenseId)
      && host(file.value.data).Hosted?
      && out.response.body.UploadJson?
      && var r := out.response.body.receipt;
      && var reply := host(file.value.data);
      && r.filename == file.value.name
      && r.url == reply.url
      && Key(r.expenseId) == KeyOf(expenseId)
      && out.response.body.image.url == r.url
      && out.response.body.image == ImageData(reply.url, reply.deleteUrl, reply.thumbnail)
      && r.id !in s.receipts
      && out.store.receipts == s.receipts[r.id := r]
      && OnlyReceiptsChanged(s, out.store)
    ensures UploadGate(s, file, expenseId).Proceed? && host(file.value.data).Hosted? ==>
      (out.response.status == 201 <==>
        && FitsVarchar(Str(host(file.value.data).url))
        && FitsVarchar(Str(file.value.name))
        && s.nextReceiptId !in s.receipts)
    ensures UploadGate(s, file, expenseId).Proceed? && host(file.value.data).Hosted? && out.response.status != 201 ==>
      out == Outcome(s, Fail(500, UploadFailed))
    ensures UploadGate(s, file, expenseId).Proceed? && host(file.value.data).HostFailed? ==>
      out == Outcome(s, Response(500, ErrorJson(ErrorField, UploadFailed, Some(host(file.value.data).details))))
  {
    match UploadGate(s, file, expenseId)
    case Stop(response) => Outcome(s, response)
    case Proceed(f, k) =>
      match host(f.data)
      case HostFailed(details) => Outcome(s, Response(500, ErrorJson(ErrorField, UploadFailed, Some(details))))
      case Hosted(url, deleteUrl, thumbnail) =>
        match InsertReceipt(s, Str(url), Str(f.name), k)
        case Rejected(_) => Outcome(s, Fail(500, UploadFailed))
        case Written(s', r) =>
          Outcome(s', Response(201, UploadJson(Uploaded, r, ImageData(url, deleteUrl, thumbnail))))
  }

  /** When a pre-check refuses the upload, the image host is never consulted:
      any two hosts give the same outcome, and nothing is stored. */
  lemma RefusedUploadNeverCallsHost(s: Store, file: Option<UploadedFile>, expenseId: Value, h1: ImageHost, h2: ImageHost)
    requires !(file.Some? && Truthy(expenseId) && NamesStoredExpense(s, expenseId))
    ensures UploadImage(s, file, expenseId, h1) == UploadImage(s, file, expenseId, h2)
    ensures UploadImage(s, file, expenseId, h1).store == s
  {
  }

  /** A successful upload stores what the host answered, and the receipt can
      be read back among its expense's receipts. */
  lemma UploadThenList(s: Store, file: Option<UploadedFile>, expenseId: Value, host: ImageHost)
    requires UploadImage(s, file, expenseId, host).response.status == 201
    ensures
      var out := UploadImage(s, file, expenseId, host);
      var r := out.response.body.receipt;
      && r.filename == file.value.name
      && r.url == host(file.value.data).url
      && var listed := GetReceiptsByExpense(out.store, r.expenseId).response;
      && listed.status == 200
      && r in listed.body.receipts
  {
    var out := UploadImage(s, file, expenseId, host);
    var r := out.response.body.receipt;
    assert out.store.receipts[r.id] == r;
    assert HasReceipts(out.store, r.expenseId);
  }

  // ---------------------------------------------------------------------
  // downloadReceipt

  /** What fetching a receipt's url yields; the reply may lack a content type. */
  datatype FetchReply = Fetched(contentType: Option<string>, data: seq<bv8>) | FetchFailed

  /** The external fetch of a url. */
  type Fetcher = string -> FetchReply

  const DispositionPrefix := "attachment; filename=\""

  /** The Content-Disposition header offering `filename` as a download. */
  function ContentDisposition(filename: string): (h: string)
    ensures |h| == |DispositionPrefix| + |filename| + 1
    ensures h[..|DispositionPrefix|] == DispositionPrefix
    ensures h[|DispositionPrefix|..|h| - 1] == filename
    ensures h[|h| - 1] == '"'
  {
    DispositionPrefix + filename + "\""
  }

  /** Different filenames give different headers. */
  lemma ContentDispositionInjective(a: string, b: string)
    requires ContentDisposition(a) == ContentDisposition(b)
    ensures a == b
  {
  }

  /** A character Node's `res.setHeader` accepts in a header value: TAB,
      0x20-0x7E and 0x80-0xFF. */
  predicate HeaderChar(c: char) {
    c == '\t' || (' ' <= c <= '~') || ('\U{80}' <= c <= '\U{FF}')
  }

  /** A header value `res.setHeader` sets without throwing. */
  predicate HeaderSafe(h: string) {
    forall i :: 0 <= i < |h| ==> HeaderChar(h[i])
  }

  /** `setHeader` refuses a value holding a control character other than TAB
      (so no CR or LF can split the header), DEL, or a character beyond 0xFF. */
  lemma HeaderRefusesUnsafeChar(h: string, i: nat)
    requires i < |h|
    requires (h[i] < ' ' && h[i] != '\t') || h[i] == '\U{7F}' || h[i] > '\U{FF}'
    ensures !HeaderSafe(h)
  {
  }

  /** The Content-Disposition header can be set exactly when the filename
      holds only characters a header value may carry. */
  lemma DispositionSafeIffFilenameSafe(filename: string)
    ensures HeaderSafe(ContentDisposition(filename)) <==> HeaderSafe(filename)
  {
  }

  function DownloadReceipt(s: Store, id: int, fetch: Fetcher): (out: Outcome)
    ensures out.store == s
    ensures id !in s.receipts ==> out.response == Fail(404, ReceiptNotFound)
    ensures out.response.status in {200, 404, 500}
    ensures id in s.receipts ==>
      (out.response.status == 200 <==>
        && fetch(s.receipts[id].url).Fetched?
        && HeaderSafe(ContentDisposition(s.receipts[id].filename))
        && fetch(s.receipts[id].url).contentType.Some?
        && HeaderSafe(fetch(s.receipts[id].url).contentType.value))
    ensures id in s.receipts && out.response.status != 200 ==> out.response == Fail(500, DownloadFailed)
    ensures out.response.status == 200 ==>
      && id in s.receipts
      && var reply := fetch(s.receipts[id].url);
      && out.response.body == Attachment(ContentDisposition(s.receipts[id].filename), reply.contentType.value, reply.data)
  {
    if id !in s.receipts then Outcome(s, Fail(404, ReceiptNotFound))
    else
      var r := s.receipts[id];
      match fetch(r.url)
      case FetchFailed => Outcome(s, Fail(500, DownloadFailed))
      case Fetched(contentType, data) =>
        var disposition := ContentDisposition(r.filename);
        if !HeaderSafe(disposition) then Outcome(s, Fail(500, DownloadFailed))
        else if contentType.None? || !HeaderSafe(contentType.value) then Outcome(s, Fail(500, DownloadFailed))
        else Outcome(s, Response(200, Attachment(disposition, contentType.value, data)))
  }

  /** A stored filename with a character a header cannot carry makes every
      download of that receipt fail with 500. */
  lemma UnsafeFilenameFailsDownload(s: Store, id: int, fetch: Fetcher)
    requires id in s.receipts && !HeaderSafe(s.receipts[id].filename)
    ensures DownloadReceipt(s, id, fetch).response == Fail(500, DownloadFailed)
  {
    DispositionSafeIffFilenameSafe(s.receipts[id].filename);
  }

  /** The header of a download names the filename the receipt was stored with. */
  lemma DownloadNamesStoredFile(s: Store, id: int, fetch: Fetcher, name: string)
    requires DownloadReceipt(s, id, fetch).response.status == 200
    requires DownloadReceipt(s, id, fetch).response.body.contentDisposition == ContentDisposition(name)
    ensures name == s.receipts[id].filename
  {
  }
}
